=== FILE: README.md ===
# Sensor metrics collector: a Dafny model

Each page of the observability dashboard (app/page.tsx, app/metrics/page.tsx, app/sensors/page.tsx,
app/storage/page.tsx) keeps its own in-memory `MetricsCollector` instance, fed by that page's own
event producer. A collector receives every sensor reading its producer emits, stamps each with the time it was processed and its ingest
latency, and keeps a bounded history of the last 1000 readings and their latencies. It also keeps a
lifetime failure counter and the session start time. The dashboard's readers ask it for:

- a metrics snapshot: counts, average and 95th-percentile latency over the last 100 samples, and
  throughput over the last minute;
- a system-health summary: status, uptime, availability and error rate;
- the most recent readings, all of them or those of one sensor type.

`reset` starts a new, empty session.

The model has five modules:

- `Types` (`types.dfy`) holds the record shapes of `lib/types.ts`.
- `JsArrays` (`js_arrays.dfy`) holds the JavaScript `filter`, one-argument `slice` and `reverse`
  that the queries are built from. It keeps `slice`'s handling of negative and out-of-range
  starts.
- `Stats` (`stats.dfy`) holds the numeric building blocks:
  - `Math.round` and `Math.ceil` on exact rationals, with integer forms proved equal;
  - the windowed average;
  - an insertion sort, proved sorted and a permutation;
  - the percentile. It is characterised as an order statistic: the `ceil(0.95 n)`-th smallest
    sample.
- `Metrics` (`metrics.dfy`) holds every read-only query as a function of the collector's state and
  of the current time. It also holds the lemmas that say what each query's answer means.
- `Collector` (`collector.dfy`) holds the class `MetricsCollector`. Its fields are updated in
  place by `RecordEvent` and `Reset`, and its invariant `Valid` is preserved by both. Two ghost
  fields, `Recorded` and `Outcomes`, hold everything recorded since the session started, including
  what eviction has dropped. The invariant ties the retained history to the last 1000 entries of
  `Recorded`, keeps the latency history aligned with it entry for entry, and ties the failure
  counter to `Outcomes`.

Every `Date.now()` of the source is a parameter `now` of the operation that reads the clock.

## Model

| member | source | states |
|---|---|---|
| Types.TypeNameInjective | lib/types.ts:1 | The four sensor-type literals are pairwise distinct, so a type-name query selects exactly one type. |
| Metrics.Enrich | lib/metrics-collector.ts:11-18 | The stored copy keeps every field the producer set. `processedAt` is the processing time, and `ingestLatency` is that time minus the event's timestamp. |
| Metrics.RetainedPush | lib/metrics-collector.ts:20-33 | One push followed by the conditional shift keeps the history equal to the last `min(N, 1000)` of all `N` values pushed, oldest first. |
| Metrics.PushBounded | lib/metrics-collector.ts:20-33 | One push followed by the shift that runs only over capacity. The pushed value ends the history, the history grows by at most one, and a history within capacity ends up with `min(n + 1, 1000)` entries. `Metrics.RetainedPush` shows it keeps the last 1000 values pushed, in order. |
| Collector.AlignedPush | lib/metrics-collector.ts:20-33 | The events and latencies are evicted by two separate length checks, yet they stay the same length, and each latency sample is the `ingestLatency` of the event at the same position. |
| Collector.ConsistentRecord | lib/metrics-collector.ts:10-34 | Recording one event, with its failure count and eviction, preserves the collector's invariant. |
| Collector.ConsistentBounds | lib/metrics-collector.ts:4-8 | Under the invariant, both histories hold `min(recordings, 1000)` entries. The failure counter never exceeds the number of recordings, and it is 0 when the history is empty. |
| Collector.FailuresAppend | lib/metrics-collector.ts:23-25 | A failed recording adds one to the failure count and a successful one adds nothing. |
| Collector.Failures | lib/metrics-collector.ts:23-25 | The failure count over a sequence of outcomes, which `failedCount` tracks. It never exceeds the number of recordings, and it is 0 exactly when every recording succeeded. |
| Collector.MetricsCollector.constructor | lib/metrics-collector.ts:4-8 | A new collector is empty, has no failures, starts its session at `now` and satisfies the invariant. |
| Collector.MetricsCollector.RecordEvent | lib/metrics-collector.ts:10-34 | The enriched event joins the session's history and the success flag joins its outcomes. Both histories get one bounded push, a failure raises the counter by one, the start time is unchanged, and the invariant holds afterwards. |
| Collector.MetricsCollector.GetSnapshot | lib/metrics-collector.ts:36-56 | The snapshot is computed from the current state. The received count is `min(recordings, 1000)` and the failed count is every failure of the session, evicted or not. |
| Metrics.SnapshotCounts | lib/metrics-collector.ts:47-51 | The snapshot is stamped `now`, and its received count is the retained count. Processed plus failed equals received. Processed is negative exactly when lifetime failures outnumber retained events. |
| Metrics.SnapshotLatency | lib/metrics-collector.ts:39-44 | The latency statistics read the last `min(100, n)` samples, and both are 0 when there are none. Otherwise the average is the sum of those samples divided by `m`, rounded half up, and lies within any bounds of them; the percentile is one of those samples, their `ceil(0.95 m)`-th smallest. |
| Metrics.SnapshotThroughput | lib/metrics-collector.ts:38-54 | Throughput is tenths of events per second: `k/6` rounded half up, where `k` counts events less than a minute old (`Metrics.RecentEventsCount`). It is within half a tenth of `k/60` and at most 16.7 with a full history. |
| Metrics.ThroughputTenths | lib/metrics-collector.ts:45-54 | For `k` events in the window, `Math.round(k / 60 * 10)` equals `k/6` rounded half up: the result `r` is within one half of `k/6` (`6r - 3 <= k < 6r + 3`) and is at most 167 for `k <= 1000`. |
| Metrics.ThroughputWindowIsStrict | lib/metrics-collector.ts:38 | An event exactly 60000 ms old is outside the throughput window, and one 59999 ms old is inside it. |
| Metrics.InWindow | lib/metrics-collector.ts:38 | An event belongs to the last minute exactly when its timestamp is at least `now - 59999`. Every event stamped at or after `now` belongs to it. |
| Metrics.RecentEvents | lib/metrics-collector.ts:38 | The throughput window is no longer than the retained history, and each of its events is a retained event less than a minute old. |
| Metrics.RecentEventsCount | lib/metrics-collector.ts:38 | The window holds each retained event less than a minute old exactly as often as it was stored, and no other event. |
| Metrics.Snapshot | lib/metrics-collector.ts:36-56 | The snapshot is stamped `now`. Processed plus failed equals received, and both latency statistics are 0 when there are no samples. The lemmas `Metrics.SnapshotCounts`, `Metrics.SnapshotLatency` and `Metrics.SnapshotThroughput` give each field's meaning. |
| Stats.Round | lib/metrics-collector.ts:52-54 | `Math.round` gives the integer `r` with `r <= x + 1/2 < r + 1`. |
| Stats.Ceil | lib/metrics-collector.ts:61 | `Math.ceil` gives the integer `r` with `x <= r < x + 1`. |
| Stats.RoundDiv | lib/metrics-collector.ts:42-52 | Rounding `a/b` half up, in integers: `2br <= 2a + b < 2br + 2b`. |
| Stats.RoundOfQuotient | lib/metrics-collector.ts:42-52 | `Math.round(a / b)` on the exact quotient equals the integer rounding `RoundDiv(a, b)`. |
| Stats.RoundDivWithin | lib/metrics-collector.ts:52 | A rounded quotient stays within any integer bounds of the exact quotient. |
| Stats.SumBounds | lib/metrics-collector.ts:42 | The `reduce` sum of samples within `[lo, hi]` lies within `[lo n, hi n]`. |
| Stats.Sum | lib/metrics-collector.ts:42 | The `reduce((a, b) => a + b, 0)` left fold. It has no contract of its own; `Stats.SumBounds` bounds it and `Stats.Average` divides it. |
| Stats.Average | lib/metrics-collector.ts:41-52 | The average latency is 0 with no samples. Otherwise it is the sample sum divided by the count, rounded half up. |
| Stats.AverageWithinRange | lib/metrics-collector.ts:41-52 | The rounded average of samples within `[lo, hi]` lies within `[lo, hi]`. |
| Stats.Insert | lib/metrics-collector.ts:60 | Inserting into a sorted sequence gives a sorted sequence that is longer by one and holds exactly the old elements plus the new one. |
| Stats.Sort | lib/metrics-collector.ts:60 | The numeric sort of a copy returns a sorted permutation of its input. |
| Stats.P95Rank | lib/metrics-collector.ts:61 | `ceil(0.95 n)` equals `(95n + 99) div 100`. |
| Stats.P95RankRange | lib/metrics-collector.ts:61 | For `n >= 1` the rank is between 1 and `n`, so the index `rank - 1` is always in range. The rank is `n` exactly when `n <= 19`. |
| Stats.P95 | lib/metrics-collector.ts:58-63 | The percentile of no values is 0. Otherwise it is one of the values. |
| Stats.CountInsert | lib/metrics-collector.ts:60 | Inserting `y` changes the number of elements below, and at most, any `x` by one exactly when `y` is below, or at most, `x`. |
| Stats.CountSort | lib/metrics-collector.ts:60 | Sorting keeps the number of elements below, and at most, any threshold. |
| Stats.SortedOrderStatistic | lib/metrics-collector.ts:60-62 | In a sorted sequence, the element at index `k` is the `(k+1)`-th smallest. |
| Stats.OrderStatisticUnique | lib/metrics-collector.ts:58-63 | The `k`-th smallest element is unique, so the order-statistic characterisation determines the percentile. |
| Stats.P95IsOrderStatistic | lib/metrics-collector.ts:58-63 | The percentile of a non-empty list is its `ceil(0.95 n)`-th smallest element: fewer than that many values lie below it and at least that many lie at or below it. |
| Stats.P95IsMaxWhenFew | lib/metrics-collector.ts:58-63 | With 1 to 19 values the percentile is their maximum. |
| Stats.P95Single | lib/metrics-collector.ts:58-63 | The percentile of one value is that value. |
| Stats.P95BelowMaxFromTwenty | lib/metrics-collector.ts:58-63 | From 20 values on, the percentile can be below the maximum: 19 or more zeros and a single 1 give 0. |
| Metrics.HealthStatus | lib/metrics-collector.ts:78-84 | Status in integers, with `n` retained events and `f` failures. Healthy iff `n = 0` or `100(n-f) >= 99n`. Degraded iff `95n <= 100(n-f) < 99n`. Critical iff `100(n-f) < 95n`. |
| Metrics.Health | lib/metrics-collector.ts:76-92 | Uptime is `now - startTime`. With no retained events the health is healthy, 100% available and 0% errors, and with no failures it is healthy. `Metrics.HealthStatus` and `Metrics.HealthPercentages` give status and percentages in integers. |
| Metrics.AvailabilityAtLeast | lib/metrics-collector.ts:79-83 | `1 - f/n >= pct/100` holds exactly when `100(n-f) >= pct n`. |
| Metrics.HealthPercentages | lib/metrics-collector.ts:77-91 | Uptime is `now - startTime`. With no retained events the health is 100% available and 0% errors. Otherwise availability and error rate are `10000(n-f)/n` and `10000f/n` hundredths of a percent, rounded half up. |
| Metrics.HealthStatusMatchesAvailability | lib/metrics-collector.ts:81-90 | The reported availability agrees with the status: healthy reports at least 99%, degraded between 95% and 99%, and critical at most 95%. |
| Metrics.HealthStatusMonotone | lib/metrics-collector.ts:78-84 | More failures against the same retained count never improve the status. |
| Metrics.HealthPercentagesTotal | lib/metrics-collector.ts:89-90 | For every retained count, including none, the rounded availability and error rate sum to 100% or to 100.01%. |
| Metrics.HealthPercentagesOverHundred | lib/metrics-collector.ts:89-90 | 1 failure in 32 events reports 96.88% availability and 3.13% errors, 100.01% in total. |
| Metrics.HealthErrorRateOverHundred | lib/metrics-collector.ts:78-90 | Lifetime failures can outnumber retained events: 1001 failures over 1000 retained events report a 100.1% error rate, -0.1% availability and critical status. |
| Collector.MetricsCollector.GetSystemHealth | lib/metrics-collector.ts:76-92 | The health is computed from `min(recordings, 1000)` retained events, the failures of the whole session and the start time. Uptime is `now - startTime`. |
| Collector.EmptySession | lib/metrics-collector.ts:36-99 | An empty collector reports zero counts, zero latencies and zero throughput. It is healthy at 100% availability, 0% errors and zero uptime. |
| JsArrays.Filter | lib/metrics-collector.ts:38 | `filter` returns only elements of the input that satisfy the predicate, includes every one that does, and is no longer than the input. `JsArrays.FilterCount` fixes the multiplicities and `JsArrays.FilterAppend` the order. |
| JsArrays.FilterCount | lib/metrics-collector.ts:38 | Each element that satisfies the predicate occurs in the result exactly as often as in the input, and no other element occurs. |
| JsArrays.FilterAppend | lib/metrics-collector.ts:38 | Filtering a sequence with one more element appends that element to the result exactly when it passes. |
| JsArrays.Slice | lib/metrics-collector.ts:39 | `slice(start)` returns a suffix. Its length is `min(-start, n)` for a negative start and `n - min(start, n)` otherwise. |
| JsArrays.Reverse | lib/metrics-collector.ts:66 | `reverse` returns the same elements in mirrored positions. |
| JsArrays.NewestFirstSpec | lib/metrics-collector.ts:65-74 | `slice(-limit).reverse()` lists the newest elements first, without gaps. A positive limit keeps `min(limit, n)` of them, a limit of 0 keeps all, and a negative limit drops `-limit` of the oldest. |
| JsArrays.NewestFirst | lib/metrics-collector.ts:66 | `slice(-limit).reverse()` returns no more elements than the input has, and its `i`-th element is the input's `i`-th from the end. |
| Metrics.RecentEventsSpec | lib/metrics-collector.ts:65-67 | The recent-events query returns the `min(limit, n)` newest retained events for `limit >= 1`, and the whole history for `limit = 0`. The newest comes first. |
| Metrics.RecentEventsQuery | lib/metrics-collector.ts:65-67 | The answer has at most as many events as the retained history, and its `i`-th event is the `i`-th most recent retained one. |
| Collector.MetricsCollector.GetRecentEvents | lib/metrics-collector.ts:65-67 | The `i`-th answer is the `i`-th most recently recorded event. For `limit >= 1` there are `min(limit, recordings, 1000)` of them. |
| Metrics.EventsBySensorSpec | lib/metrics-collector.ts:69-74 | The sensor query returns only retained events of the named type, newest first. For `limit >= 1` it returns `min(limit, count of that type)` of them. |
| Metrics.OfType | lib/metrics-collector.ts:71 | Every selected event has the queried type name. `Metrics.EventsBySensorSelectsType` gives its exact contents. |
| Metrics.EventsBySensorQuery | lib/metrics-collector.ts:69-74 | Every answer is a retained event whose type has the queried name. |
| Metrics.EventsBySensorSelectsType | lib/metrics-collector.ts:69-74 | A query by a type's own name selects exactly the retained events of that type: each answer has that type, and each retained event of that type is selected as often as it was stored. For `limit >= 1` the answer has `min(limit, that count)` events. |
| Metrics.EventsBySensorUnknownType | lib/metrics-collector.ts:69-74 | A name that is not a sensor type's selects nothing. |
| Metrics.EventsBySensorNewest | lib/metrics-collector.ts:69-74 | The event recorded last heads the answer to a query for its type whenever `limit >= 1`. |
| Collector.MetricsCollector.GetEventsBySensor | lib/metrics-collector.ts:69-74 | Every answer is an event recorded in this session whose type has the queried name. The answer is the sensor query applied to the retained history. |
| Collector.MetricsCollector.Reset | lib/metrics-collector.ts:94-99 | Both histories and the session record are emptied, the failure counter is zeroed and the start time becomes `now`. The invariant holds, and the health reads healthy, 100%, 0% with zero uptime. |

## Left out

- Floating point is not modelled. Values, latencies and percentages are exact rationals (`real`), and `Math.round` and `Math.ceil` are applied to the exact values. While timestamps, latencies and the sum of the latency window stay below 2^53 in magnitude, and with at most 1000 retained events (`n, k <= 1000`), this changes only the two health percentages. In doubles `1 - f/n` and `f/n` can land just below a half hundredth of a percent that the exact value sits on: with `n = 160` and `f = 103` the double `(1 - 103/160) * 10000` is `3562.4999999999995`, so the source reports 35.62% availability where the model reports 35.63%. The throughput (`k/60*10` rounds like `k/6` for every `k <= 1000`), the average of integer samples (an exact half quotient is itself a double), the percentile index (`n * 0.95` never rounds above the exact value's ceiling for `n <= 100`) and the status thresholds agree with the double computation. `recordEvent` does not check timestamps, so larger magnitudes can occur. Above 2^53 the double subtraction `processedAt - timestamp` and the `reduce` sum drop low bits that the model keeps. For example, a timestamp of -2^53 recorded at time 1 gets the exact latency 2^53 + 1 in the model, while doubles store 2^53. A window of 100 latencies near 10^14 whose exact sum is 10000000000000145 averages to 100000000000001 in the model and to 100000000000002 in doubles.
- Timestamps and latencies are integers (milliseconds). Non-integer, NaN or infinite timestamps are not modelled. The percentile's `|| 0` fallback is therefore only reached for a stored sample equal to 0, and it returns that same value.
- `Date.now()` is not modelled as a clock. Each operation that reads it takes the time as the parameter `now`, and nothing relates successive times.
- Non-integer and non-numeric `limit` arguments are not modelled. The model takes integer limits, including 0 and negative ones, with `slice`'s own meaning for each.
- Object identity and aliasing are not modelled. Stored events are values, so the model does not capture that a caller holding a returned event can mutate the stored object, or that the spread copy is shallow.
- `getEventsBySensor` compares its string argument with the type's literal name (`TypeName`). A reading whose `sensorType` is outside the four literals cannot be represented.
- The event producer (lib/data-simulator.ts) and the dashboard pages and components (app/, components/) are not part of this model.
- The percentile equals the maximum for up to 19 values, not 20. With 20 values `ceil(0.95 * 20) = 19` picks the second largest, as `Stats.P95BelowMaxFromTwenty` shows.

=== FILE: collector.dfy ===
/** `MetricsCollector` (lib/metrics-collector.ts): the only mutable state of the engine. It keeps two
    parallel bounded histories (stored events and their latency samples), a lifetime failure
    counter and the session start time. `RecordEvent` and `Reset` change them in place; the query
    methods read them through the functions of module Metrics. Every `Date.now()` of the source is
    the parameter `now`. */
module Collector {
  import opened Types
  import opened JsArrays
  import opened Metrics

  /** Number of `false` outcomes. */
  function Failures(outcomes: seq<bool>): (r: nat)
    ensures r <= |outcomes|
    ensures r == 0 <==> forall i :: 0 <= i < |outcomes| ==> outcomes[i]
  {
    if outcomes == [] then 0
    else Failures(outcomes[..|outcomes| - 1]) + (if outcomes[|outcomes| - 1] then 0 else 1)
  }

  /** Failures are counted one outcome at a time. */
  lemma FailuresAppend(outcomes: seq<bool>, success: bool)
    ensures Failures(outcomes + [success]) == Failures(outcomes) + (if success then 0 else 1)
  {
    assert (outcomes + [success])[..|outcomes|] == outcomes;
  }

  /** The latency history runs alongside the event history: same length, and each sample is the
      `ingestLatency` of the event at the same position. */
  ghost predicate Aligned(events: seq<SensorEvent>, latencies: seq<int>)
  {
    |latencies| == |events| && forall i :: 0 <= i < |events| ==> events[i].ingestLatency == Some(latencies[i])
  }

  /** The two histories are evicted by separate length checks, yet pushing an event and its own
      latency onto aligned histories leaves them aligned. */
  lemma AlignedPush(events: seq<SensorEvent>, latencies: seq<int>, e: SensorEvent, latency: int)
    requires Aligned(events, latencies)
    requires e.ingestLatency == Some(latency)
    ensures Aligned(PushBounded(events, e), PushBounded(latencies, latency))
  {
    var es, ls := events + [e], latencies + [latency];
    assert Aligned(es, ls);
    if |es| > MaxHistorySize {
      assert Aligned(es[1..], ls[1..]) by {
        forall i | 0 <= i < |es| - 1
          ensures es[1..][i].ingestLatency == Some(ls[1..][i])
        {
          assert es[1..][i] == es[i + 1];
        }
      }
    }
  }

  /** The collector's invariant. The retained events are the last 1000 recorded ones; the latency
      history runs alongside them entry for entry; every recorded event is enriched; and the
      failure counter counts every failure of the session, evicted or not. */
  ghost predicate Consistent(events: seq<SensorEvent>, latencies: seq<int>, failedCount: nat,
                             recorded: seq<SensorEvent>, outcomes: seq<bool>)
  {
    && |outcomes| == |recorded|
    && events == Retained(recorded)
    && Aligned(events, latencies)
    && (forall i :: 0 <= i < |recorded| ==> IsEnriched(recorded[i]))
    && failedCount == Failures(outcomes)
  }

  /** What the invariant gives the readers: both histories hold at most 1000 entries and have the
      same length, which is the number of recordings capped at 1000; the failure counter never
      exceeds the number of recordings and is 0 whenever the history is empty. */
  lemma ConsistentBounds(events: seq<SensorEvent>, latencies: seq<int>, failedCount: nat,
                         recorded: seq<SensorEvent>, outcomes: seq<bool>)
    requires Consistent(events, latencies, failedCount, recorded, outcomes)
    ensures |events| == |latencies| == Min(|recorded|, MaxHistorySize) <= MaxHistorySize
    ensures failedCount <= |recorded|
    ensures |events| == 0 ==> failedCount == 0
  {
  }

  /** Recording one event, with eviction, preserves the invariant. */
  lemma ConsistentRecord(events: seq<SensorEvent>, latencies: seq<int>, failedCount: nat,
                         recorded: seq<SensorEvent>, outcomes: seq<bool>, event: SensorEvent, now: int, success: bool)
    requires Consistent(events, latencies, failedCount, recorded, outcomes)
    ensures Consistent(PushBounded(events, Enrich(event, now)), PushBounded(latencies, now - event.timestamp),
                       failedCount + (if success then 0 else 1),
                       recorded + [Enrich(event, now)], outcomes + [success])
  {
    var e := Enrich(event, now);
    RetainedPush(recorded, e);
    AlignedPush(events, latencies, e, now - event.timestamp);
    FailuresAppend(outcomes, success);
    assert forall i :: 0 <= i < |recorded| + 1 ==> IsEnriched((recorded + [e])[i]);
  }

  /** Everything a fresh or freshly reset collector reports: empty counts and latencies, zero
      throughput, and a healthy system at 100% availability with zero uptime. */
  lemma EmptySession(now: int)
    ensures Snapshot([], [], 0, now) == MetricsSnapshot(now, 0, 0, 0, 0, 0, 0.0)
    ensures Health(0, 0, now, now) == SystemHealth(Healthy, 0, 100.0, 0.0)
  {
    HealthPercentages(0, 0, now, now);
  }

  class MetricsCollector {
    var events: seq<SensorEvent>
    var latencies: seq<int>
    var failedCount: nat
    var startTime: int

    /** Public view: every event stored since the session started, oldest first, and the success
        flag each was recorded with. Eviction does not touch these. */
    ghost var Recorded: seq<SensorEvent>
    ghost var Outcomes: seq<bool>

    ghost predicate Valid()
      reads this
    {
      Consistent(events, latencies, failedCount, Recorded, Outcomes)
    }

    constructor (now: int)
      ensures Valid()
      ensures events == [] && latencies == [] && failedCount == 0 && startTime == now
      ensures Recorded == [] && Outcomes == []
    {
      events := [];
      latencies := [];
      failedCount := 0;
      startTime := now;
      Recorded := [];
      Outcomes := [];
    }

    /** `recordEvent(event, success = true)` at time `now`: store the enriched event and its latency,
        count a failure, then evict the oldest entry of each history that is over capacity. */
    method RecordEvent(event: SensorEvent, now: int, success: bool := true)
      requires Valid()
      modifies this
      ensures Valid()
      ensures Recorded == old(Recorded) + [Enrich(event, now)]
      ensures Outcomes == old(Outcomes) + [success]
      ensures events == PushBounded(old(events), Enrich(event, now))
      ensures latencies == PushBounded(old(latencies), now - event.timestamp)
      ensures failedCount == old(failedCount) + (if success then 0 else 1)
      ensures startTime == old(startTime)
    {
      var processedAt := now;
      var latency := processedAt - event.timestamp;
      var processedEvent := event.(processedAt := Some(processedAt), ingestLatency := Some(latency));

      events := events + [processedEvent];
      latencies := latencies + [latency];

      if !success {
        failedCount := failedCount + 1;
      }

      if |events| > MaxHistorySize {
        events := events[1..];
      }
      if |latencies| > MaxHistorySize {
        latencies := latencies[1..];
      }

      assert processedEvent == Enrich(event, now);
      assert events == PushBounded(old(events), processedEvent);
      assert latencies == PushBounded(old(latencies), latency);
      ConsistentRecord(old(events), old(latencies), old(failedCount), Recorded, Outcomes, event, now, success);
      Recorded := Recorded + [processedEvent];
      Outcomes := Outcomes + [success];
    }

    /** `getSnapshot()` at time `now`. The retained count is at most 1000 while the failure count
        covers the whole session. */
    method GetSnapshot(now: int) returns (snapshot: MetricsSnapshot)
      requires Valid()
      ensures snapshot == Snapshot(events, latencies, failedCount, now)
      ensures snapshot.eventsReceived == Min(|Recorded|, MaxHistorySize)
      ensures snapshot.eventsFailed == Failures(Outcomes)
    {
      snapshot := Snapshot(events, latencies, failedCount, now);
    }

    /** `getSystemHealth()` at time `now`. */
    method GetSystemHealth(now: int) returns (health: SystemHealth)
      requires Valid()
      ensures health == Health(|events|, failedCount, startTime, now)
      ensures health == Health(Min(|Recorded|, MaxHistorySize), Failures(Outcomes), startTime, now)
      ensures health.uptime == now - startTime
    {
      health := Health(|events|, failedCount, startTime, now);
    }

    /** `getRecentEvents(limit = 100)`: the answer lists the most recently recorded events first. */
    method GetRecentEvents(limit: int := 100) returns (recent: seq<SensorEvent>)
      requires Valid()
      ensures recent == RecentEventsQuery(events, limit)
      ensures limit >= 1 ==> |recent| == Min(limit, Min(|Recorded|, MaxHistorySize))
      ensures forall i :: 0 <= i < |recent| ==> recent[i] == Recorded[|Recorded| - 1 - i]
    {
      recent := RecentEventsQuery(events, limit);
      RecentEventsSpec(events, limit);
      assert events == Recorded[|Recorded| - |events|..];
    }

    /** `getEventsBySensor(sensorType, limit = 50)`. */
    method GetEventsBySensor(query: string, limit: int := 50) returns (matching: seq<SensorEvent>)
      requires Valid()
      ensures matching == EventsBySensorQuery(events, query, limit)
      ensures forall i :: 0 <= i < |matching| ==> matching[i] in Recorded
      ensures forall i :: 0 <= i < |matching| ==> TypeName(matching[i].sensorType) == query
    {
      matching := EventsBySensorQuery(events, query, limit);
      EventsBySensorSpec(events, query, limit);
      assert events == Recorded[|Recorded| - |events|..];
    }

    /** `reset()` at time `now`: a new, empty session. */
    method Reset(now: int)
      requires Valid()
      modifies this
      ensures Valid()
      ensures events == [] && latencies == [] && failedCount == 0 && startTime == now
      ensures Recorded == [] && Outcomes == []
      ensures Health(|events|, failedCount, startTime, now) == SystemHealth(Healthy, 0, 100.0, 0.0)
    {
      events := [];
      latencies := [];
      failedCount := 0;
      startTime := now;
      Recorded := [];
      Outcomes := [];
      EmptySession(now);
    }
  }
}

=== FILE: js_arrays.dfy ===
/** The three JavaScript array operations the collector's queries are built from, with the
    semantics the language gives them: `filter`, one-argument `slice` and `reverse`. */
module JsArrays {

  function Min(a: int, b: int): int
  {
    if a <= b then a else b
  }

  /** `s.filter(p)`: the elements satisfying `p`, in their original order. */
  function Filter<T>(s: seq<T>, p: T -> bool): (r: seq<T>)
    ensures |r| <= |s|
    ensures forall i :: 0 <= i < |r| ==> r[i] in s && p(r[i])
    ensures forall i :: 0 <= i < |s| && p(s[i]) ==> s[i] in r
  {
    if s == [] then []
    else Filter(s[..|s| - 1], p) + (if p(s[|s| - 1]) then [s[|s| - 1]] else [])
  }

  /** Filtering keeps every passing element as often as it occurs and drops every failing one. */
  lemma {:induction false} FilterCount<T(!new)>(s: seq<T>, p: T -> bool)
    ensures forall x :: multiset(Filter(s, p))[x] == if p(x) then multiset(s)[x] else 0
  {
    if s != [] {
      var init, last := s[..|s| - 1], s[|s| - 1];
      assert s == init + [last];
      FilterCount(init, p);
    }
  }

  /** Filtering is incremental: appending an element appends it to the result iff it passes.
      With `Filter([], p) == []` this fixes the result's order as well as its contents. */
  lemma FilterAppend<T>(s: seq<T>, x: T, p: T -> bool)
    ensures Filter(s + [x], p) == Filter(s, p) + (if p(x) then [x] else [])
  {
    assert (s + [x])[..|s + [x]| - 1] == s;
  }

  /** `s.slice(start)`: a negative start counts back from the end, and a start outside the array
      is clamped to it, so the result is always a suffix of `s`. */
  function Slice<T>(s: seq<T>, start: int): (r: seq<T>)
    ensures |r| == if start < 0 then Min(-start, |s|) else |s| - Min(start, |s|)
    ensures r == s[|s| - |r|..]
  {
    var k := if start < 0 then (if |s| + start > 0 then |s| + start else 0)
             else (if start < |s| then start else |s|);
    s[k..]
  }

  /** `s.reverse()` on a fresh copy. */
  function Reverse<T>(s: seq<T>): (r: seq<T>)
    ensures |r| == |s|
    ensures forall i :: 0 <= i < |s| ==> r[i] == s[|s| - 1 - i]
  {
    if s == [] then [] else Reverse(s[1..]) + [s[0]]
  }

  /** `s.slice(-limit).reverse()`, the shape of both event-history queries: some of the newest
      elements of `s`, newest first. */
  function NewestFirst<T>(s: seq<T>, limit: int): (r: seq<T>)
    ensures |r| <= |s|
    ensures forall i :: 0 <= i < |r| ==> r[i] == s[|s| - 1 - i]
  {
    Reverse(Slice(s, -limit))
  }

  /** Whatever the limit, the result lists the newest elements of `s` first and without gaps.
      A positive limit keeps at most `limit` of them; a zero limit becomes `slice(0)` and keeps
      all; a negative limit drops `-limit` elements from the oldest end. */
  lemma NewestFirstSpec<T>(s: seq<T>, limit: int)
    ensures var r := NewestFirst(s, limit);
      && (limit >= 1 ==> |r| == Min(limit, |s|))
      && (limit == 0 ==> |r| == |s|)
      && (limit < 0 ==> |r| == |s| - Min(-limit, |s|))
      && forall i :: 0 <= i < |r| ==> r[i] == s[|s| - 1 - i]
  {
    var t := Slice(s, -limit);
    assert t == s[|s| - |t|..];
    forall i | 0 <= i < |t|
      ensures NewestFirst(s, limit)[i] == s[|s| - 1 - i]
    {
      assert NewestFirst(s, limit)[i] == t[|t| - 1 - i];
    }
  }
}

=== FILE: metrics.dfy ===
/** The read-only half of the metrics collector (lib/metrics-collector.ts:36-92): every query is a
    function of the collector's state and of the current time `now`. The state-changing half, and
    the invariant that relates the state's parts, is in module Collector. */
module Metrics {
  import opened Types
  import opened JsArrays
  import opened Stats

  /** Capacity of each retained history. */
  const MaxHistorySize := 1000
  /** Number of most recent latency samples the average and the percentile look at. */
  const LatencyWindow := 100
  /** Width of the throughput window, in milliseconds. */
  const ThroughputWindowMs := 60000

  // ---------------------------------------------------------------------------------------------
  // Ingestion

  /** `{...event, processedAt, ingestLatency}` as stored by `recordEvent` at time `now`: the
      producer's fields are kept and the latency is `now - timestamp`, negative for an event
      stamped in the future. */
  function Enrich(e: SensorEvent, now: int): (r: SensorEvent)
    ensures SameReading(r, e)
    ensures IsEnriched(r) && r.processedAt == Some(now)
  {
    e.(processedAt := Some(now), ingestLatency := Some(now - e.timestamp))
  }

  /** One `push` followed by the `shift` that runs when the history is over capacity. */
  function PushBounded<T>(s: seq<T>, x: T): (r: seq<T>)
    ensures |s| <= MaxHistorySize ==> |r| == Min(|s| + 1, MaxHistorySize)
    ensures 0 < |r| <= |s| + 1 && r[|r| - 1] == x
  {
    var t := s + [x];
    if |t| > MaxHistorySize then t[1..] else t
  }

  /** The retained part of everything recorded since the session started: the most recent
      `MaxHistorySize` entries, oldest first. */
  function Retained<T>(recorded: seq<T>): seq<T>
  {
    Slice(recorded, -MaxHistorySize)
  }

  /** Pushing with eviction onto the retained history keeps it equal to the retained part of the
      longer history: the bounded queue always holds the last `min(N, 1000)` insertions in order. */
  lemma RetainedPush<T>(recorded: seq<T>, x: T)
    ensures Retained(recorded + [x]) == PushBounded(Retained(recorded), x)
    ensures |Retained(recorded)| == Min(|recorded|, MaxHistorySize)
  {
    var r := Retained(recorded);
    var r' := Retained(recorded + [x]);
    assert r == recorded[|recorded| - |r|..];
    assert r' == (recorded + [x])[|recorded| + 1 - |r'|..];
    if |recorded| >= MaxHistorySize {
      assert PushBounded(r, x) == (r + [x])[1..];
      assert r' == recorded[|recorded| + 1 - MaxHistorySize..] + [x];
    } else {
      assert r' == recorded + [x];
    }
  }

  // ---------------------------------------------------------------------------------------------
  // getSnapshot

  /** `now - e.timestamp < 60000`: the event belongs to the last minute. The inequality is strict,
      and an event stamped in the future is inside the window. */
  function InWindow(e: SensorEvent, now: int): (b: bool)
    ensures b <==> e.timestamp >= now - (ThroughputWindowMs - 1)
    ensures e.timestamp >= now ==> b
  {
    now - e.timestamp < ThroughputWindowMs
  }

  /** `events.filter(e => now - e.timestamp < 60000)`. */
  function RecentEvents(events: seq<SensorEvent>, now: int): (r: seq<SensorEvent>)
    ensures |r| <= |events|
    ensures forall i :: 0 <= i < |r| ==> r[i] in events && InWindow(r[i], now)
  {
    Filter(events, e => InWindow(e, now))
  }

  /** The window count counts every event less than a minute old, as often as it was stored, and
      nothing else. */
  lemma RecentEventsCount(events: seq<SensorEvent>, now: int)
    ensures forall e :: multiset(RecentEvents(events, now))[e] == if InWindow(e, now) then multiset(events)[e] else 0
  {
    FilterCount(events, e => InWindow(e, now));
  }

  /** `getSnapshot()` at time `now`. The counts describe the whole retained history, the failure
      count is the lifetime counter, the throughput looks at the last minute and the latency
      statistics at the last 100 samples: three different windows, kept as the source has them. */
  function Snapshot(events: seq<SensorEvent>, latencies: seq<int>, failed: nat, now: int): (r: MetricsSnapshot)
    ensures r.timestamp == now
    ensures r.eventsProcessed + r.eventsFailed == r.eventsReceived
    ensures latencies == [] ==> r.avgLatency == 0 && r.p95Latency == 0
  {
    var recent := RecentEvents(events, now);
    var window := Slice(latencies, -LatencyWindow);
    var throughput := |recent| as real / 60.0;
    MetricsSnapshot(
      timestamp := now,
      eventsReceived := |events|,
      eventsProcessed := |events| - failed,
      eventsFailed := failed,
      avgLatency := Average(window),
      p95Latency := Round(P95(window) as real),
      throughput := Round(throughput * 10.0) as real / 10.0)
  }

  /** Counts: received is the retained count, failed is the counter as given, and processed is
      their difference, which is negative once lifetime failures outnumber retained events. */
  lemma SnapshotCounts(events: seq<SensorEvent>, latencies: seq<int>, failed: nat, now: int)
    ensures var s := Snapshot(events, latencies, failed, now);
      && s.timestamp == now
      && s.eventsReceived == |events|
      && s.eventsFailed == failed
      && s.eventsProcessed + s.eventsFailed == s.eventsReceived
      && (s.eventsProcessed < 0 <==> failed > |events|)
  {
  }

  /** The latency statistics read the last `min(100, n)` samples. With none, both are 0. Otherwise
      the average is their rounded mean and lies within any bounds `lo`, `hi` of them, and the
      percentile is one of them, namely their `ceil(0.95 m)`-th smallest. */
  lemma SnapshotLatency(events: seq<SensorEvent>, latencies: seq<int>, failed: nat, now: int, lo: int, hi: int)
    ensures var s := Snapshot(events, latencies, failed, now);
      var m := Min(LatencyWindow, |latencies|);
      var window := latencies[|latencies| - m..];
      && (m == 0 ==> s.avgLatency == 0 && s.p95Latency == 0)
      && (m > 0 ==> s.avgLatency == RoundDiv(Sum(window), m))
      && (m > 0 ==> s.p95Latency in window && IsOrderStatistic(window, P95Rank(m), s.p95Latency))
      && (m > 0 && (forall i :: 0 <= i < m ==> lo <= window[i] <= hi) ==> lo <= s.avgLatency <= hi)
  {
    var window := Slice(latencies, -LatencyWindow);
    var s := Snapshot(events, latencies, failed, now);
    assert s.avgLatency == Average(window) && s.p95Latency == Round(P95(window) as real);
    WindowStatistics(window, lo, hi);
  }

  lemma WindowStatistics(window: seq<int>, lo: int, hi: int)
    ensures |window| == 0 ==> Average(window) == 0 && Round(P95(window) as real) == 0
    ensures |window| > 0 ==> Round(P95(window) as real) in window
    ensures |window| > 0 ==> IsOrderStatistic(window, P95Rank(|window|), Round(P95(window) as real))
    ensures |window| > 0 && (forall i :: 0 <= i < |window| ==> lo <= window[i] <= hi) ==>
      lo <= Average(window) <= hi
  {
    var p := P95(window);
    assert Round(p as real) == p;
    if |window| > 0 {
      P95IsOrderStatistic(window);
      if forall i :: 0 <= i < |window| ==> lo <= window[i] <= hi {
        AverageWithinRange(window, lo, hi);
      }
    }
  }

  /** Throughput is `k / 60` events per second rounded to one decimal, where `k` counts the events
      less than a minute old; in integer form `10 * throughput` is `k / 6` rounded, so it is within
      half a tenth of `k / 60`, and at most 16.7 with a full history. */
  lemma SnapshotThroughput(events: seq<SensorEvent>, latencies: seq<int>, failed: nat, now: int)
    ensures var s := Snapshot(events, latencies, failed, now);
      var k := |RecentEvents(events, now)|;
      var tenths := RoundDiv(k, 6);
      && k <= |events|
      && s.throughput == tenths as real / 10.0
      && 6 * tenths - 3 <= k < 6 * tenths + 3
      && (|events| <= MaxHistorySize ==> tenths <= 167)
  {
    var k := |RecentEvents(events, now)|;
    ThroughputTenths(k);
  }

  /** `Math.round(k / 60 * 10)` in integers, for `k` events in the window. */
  lemma ThroughputTenths(k: nat)
    ensures Round(k as real / 60.0 * 10.0) == RoundDiv(k, 6)
    ensures 6 * RoundDiv(k, 6) - 3 <= k < 6 * RoundDiv(k, 6) + 3
    ensures k <= MaxHistorySize ==> RoundDiv(k, 6) <= 167
  {
    assert k as real / 60.0 * 10.0 == k as real / 6 as real;
    RoundOfQuotient(k, 6);
    if k <= MaxHistorySize {
      RoundDivWithin(k, 6, 0, 167);
    }
  }

  /** The window is strict: adding an event stamped exactly 60000 ms before `now` leaves the
      throughput count unchanged, while one stamped 59999 ms before adds one. */
  lemma ThroughputWindowIsStrict(events: seq<SensorEvent>, e: SensorEvent, now: int)
    ensures e.timestamp == now - ThroughputWindowMs ==>
      |RecentEvents(events + [e], now)| == |RecentEvents(events, now)|
    ensures e.timestamp == now - ThroughputWindowMs + 1 ==>
      |RecentEvents(events + [e], now)| == |RecentEvents(events, now)| + 1
  {
    FilterAppend(events, e, e => InWindow(e, now));
  }

  // ---------------------------------------------------------------------------------------------
  // getSystemHealth

  /** `getSystemHealth()` at time `now`, from the retained event count and the lifetime failure
      count. Thresholds and percentages are computed on the exact ratio. */
  function Health(received: nat, failed: nat, startTime: int, now: int): (r: SystemHealth)
    ensures r.uptime == now - startTime
    ensures received == 0 ==> r == SystemHealth(Healthy, now - startTime, 100.0, 0.0)
    ensures failed == 0 ==> r.status == Healthy
  {
    var errorRate: real := if received > 0 then failed as real / received as real else 0.0;
    var availability := 1.0 - errorRate;
    var status :=
      if availability >= 0.99 then Healthy
      else if availability >= 0.95 then Degraded
      else Critical;
    SystemHealth(
      status := status,
      uptime := now - startTime,
      availability := Round(availability * 10000.0) as real / 100.0,
      errorRate := Round(errorRate * 10000.0) as real / 100.0)
  }

  /** The status thresholds in integer arithmetic: with `n` retained events and `f` failures,
      healthy iff `100 (n - f) >= 99 n`, degraded iff `95 n <= 100 (n - f) < 99 n`, and critical
      iff `100 (n - f) < 95 n`; with no retained events the collector is healthy. */
  lemma HealthStatus(n: nat, f: nat, startTime: int, now: int)
    ensures var h := Health(n, f, startTime, now);
      && (h.status == Healthy <==> n == 0 || 100 * (n - f) >= 99 * n)
      && (h.status == Degraded <==> n > 0 && 95 * n <= 100 * (n - f) < 99 * n)
      && (h.status == Critical <==> n > 0 && 100 * (n - f) < 95 * n)
  {
    if n > 0 {
      AvailabilityAtLeast(n, f, 99);
      AvailabilityAtLeast(n, f, 95);
    }
  }

  /** `1 - f/n >= pct/100` decided in integers. */
  lemma AvailabilityAtLeast(n: nat, f: nat, pct: int)
    requires n > 0
    ensures 1.0 - f as real / n as real >= pct as real / 100.0 <==> 100 * (n - f) >= pct * n
  {
    var p := pct as real / 100.0;
    SubQuotient(f as real, n as real);
    DivAtLeast(n as real - f as real, n as real, p);
    CastMul(pct, n);
    assert p * n as real == (pct * n) as real / 100.0;
  }

  /** The reported percentages in integer form: hundredths of a percent are `10000 (n - f) / n`
      and `10000 f / n` rounded; with no retained events, 100% available and 0% errors. */
  lemma HealthPercentages(n: nat, f: nat, startTime: int, now: int)
    ensures var h := Health(n, f, startTime, now);
      && h.uptime == now - startTime
      && (n == 0 ==> h.availability == 100.0 && h.errorRate == 0.0)
      && (n > 0 ==> h.availability == RoundDiv(10000 * (n - f), n) as real / 100.0)
      && (n > 0 ==> h.errorRate == RoundDiv(10000 * f, n) as real / 100.0)
  {
    if n > 0 {
      var x := f as real / n as real;
      ScaledQuotient(f as real, n as real, 10000.0);
      assert x * 10000.0 == (10000 * f) as real / n as real;
      RoundOfQuotient(10000 * f, n);
      SubQuotient(f as real, n as real);
      ScaledQuotient(n as real - f as real, n as real, 10000.0);
      assert (1.0 - x) * 10000.0 == (10000 * (n - f)) as real / n as real;
      RoundOfQuotient(10000 * (n - f), n);
    }
  }

  /** The rounded status and the rounded availability agree: healthy reports at least 99%,
      degraded between 95% and 99%, critical at most 95%. (Rounding can lift a degraded 98.996%
      to 99.00% and a critical 94.996% to 95.00%.) */
  lemma HealthStatusMatchesAvailability(n: nat, f: nat, startTime: int, now: int)
    ensures var h := Health(n, f, startTime, now);
      && (h.status == Healthy ==> h.availability >= 99.0)
      && (h.status == Degraded ==> 95.0 <= h.availability <= 99.0)
      && (h.status == Critical ==> h.availability <= 95.0)
  {
    HealthStatus(n, f, startTime, now);
    HealthPercentages(n, f, startTime, now);
    if n > 0 {
      var a := 10000 * (n - f);
      if 100 * (n - f) >= 99 * n {
        RoundDivWithin(a, n, 9900, 10000);
      } else if 100 * (n - f) >= 95 * n {
        RoundDivWithin(a, n, 9500, 9900);
      } else {
        RoundDivWithin(a, n, a / n - 1, 9500);
      }
    }
  }

  function Severity(s: Status): nat
  {
    match s
    case Healthy => 0
    case Degraded => 1
    case Critical => 2
  }

  /** More failures against the same retained count never improve the status. */
  lemma HealthStatusMonotone(n: nat, f: nat, g: nat, startTime: int, now: int)
    requires f <= g
    ensures Severity(Health(n, f, startTime, now).status) <= Severity(Health(n, g, startTime, now).status)
  {
    HealthStatus(n, f, startTime, now);
    HealthStatus(n, g, startTime, now);
  }

  /** Availability and error rate are rounded separately, so together they report 100% or, when
      the error rate sits exactly on a half hundredth of a percent, 100.01%. */
  lemma HealthPercentagesTotal(n: nat, f: nat, startTime: int, now: int)
    ensures var h := Health(n, f, startTime, now);
      h.availability + h.errorRate == 100.0 || h.availability + h.errorRate == 100.01
  {
    HealthPercentages(n, f, startTime, now);
    if n > 0 {
      var a := RoundDiv(10000 * (n - f), n);
      var e := RoundDiv(10000 * f, n);
      if a + e > 10001 {
        MulMonotone(2 * n, 10002, a + e);
      }
      if a + e < 10000 {
        MulMonotone(2 * n, a + e + 2, 10001);
      }
    }
  }

  /** One failure in 32 events: 96.88% available and 3.13% errors, which together make 100.01%. */
  lemma HealthPercentagesOverHundred()
    ensures Health(32, 1, 0, 0).availability == 96.88
    ensures Health(32, 1, 0, 0).errorRate == 3.13
  {
    HealthPercentages(32, 1, 0, 0);
  }

  /** The error rate divides a lifetime count by a retained count, so it exceeds 100% once
      failures outnumber retained events. */
  lemma HealthErrorRateOverHundred()
    ensures Health(1000, 1001, 0, 0).errorRate == 100.1
    ensures Health(1000, 1001, 0, 0).availability == -0.1
    ensures Health(1000, 1001, 0, 0).status == Critical
  {
    HealthPercentages(1000, 1001, 0, 0);
    HealthStatus(1000, 1001, 0, 0);
  }

  // ---------------------------------------------------------------------------------------------
  // getRecentEvents and getEventsBySensor

  /** `events.slice(-limit).reverse()`. */
  function RecentEventsQuery(events: seq<SensorEvent>, limit: int): (r: seq<SensorEvent>)
    ensures |r| <= |events|
    ensures forall i :: 0 <= i < |r| ==> r[i] == events[|events| - 1 - i]
  {
    NewestFirst(events, limit)
  }

  /** The retained events whose type is named `query`, in storage order. */
  function OfType(events: seq<SensorEvent>, query: string): (r: seq<SensorEvent>)
    ensures forall i :: 0 <= i < |r| ==> TypeName(r[i].sensorType) == query
  {
    Filter(events, (e: SensorEvent) => TypeName(e.sensorType) == query)
  }

  /** `events.filter(e => e.sensorType === query).slice(-limit).reverse()`. */
  function EventsBySensorQuery(events: seq<SensorEvent>, query: string, limit: int): (r: seq<SensorEvent>)
    ensures forall i :: 0 <= i < |r| ==> r[i] in events && TypeName(r[i].sensorType) == query
  {
    NewestFirst(OfType(events, query), limit)
  }

  /** For `limit >= 1` the recent-events query returns the `min(limit, n)` newest events, newest
      first; `limit == 0` returns the whole history reversed. */
  lemma RecentEventsSpec(events: seq<SensorEvent>, limit: int)
    ensures var r := RecentEventsQuery(events, limit);
      && (limit >= 1 ==> |r| == Min(limit, |events|))
      && (limit == 0 ==> |r| == |events|)
      && forall i :: 0 <= i < |r| ==> r[i] == events[|events| - 1 - i]
  {
    NewestFirstSpec(events, limit);
  }

  /** The sensor query returns only retained events of the named type, the newest of them first;
      for `limit >= 1` exactly `min(limit, count of that type)` of them. */
  lemma EventsBySensorSpec(events: seq<SensorEvent>, query: string, limit: int)
    ensures var r := EventsBySensorQuery(events, query, limit);
      var matching := OfType(events, query);
      && (forall i :: 0 <= i < |r| ==> r[i] in events && TypeName(r[i].sensorType) == query)
      && (limit >= 1 ==> |r| == Min(limit, |matching|))
      && forall i :: 0 <= i < |r| ==> r[i] == matching[|matching| - 1 - i]
  {
    var matching := OfType(events, query);
    NewestFirstSpec(matching, limit);
    var r := EventsBySensorQuery(events, query, limit);
    forall i | 0 <= i < |r|
      ensures r[i] in events && TypeName(r[i].sensorType) == query
    {
      assert r[i] == matching[|matching| - 1 - i];
    }
  }

  /** A name that is not a sensor type's selects nothing. */
  lemma EventsBySensorUnknownType(events: seq<SensorEvent>, query: string, limit: int)
    requires forall t: SensorType :: TypeName(t) != query
    ensures EventsBySensorQuery(events, query, limit) == []
  {
  }

  /** A query by a type's own name selects exactly the retained events of that type: each answer
      has that type, and for `limit >= 1` there are `min(limit, k)` answers, where `k` counts the
      retained events of that type. */
  lemma EventsBySensorSelectsType(events: seq<SensorEvent>, t: SensorType, limit: int)
    ensures var r := EventsBySensorQuery(events, TypeName(t), limit);
      && (forall i :: 0 <= i < |r| ==> r[i].sensorType == t)
      && (limit >= 1 ==> |r| == Min(limit, |OfType(events, TypeName(t))|))
    ensures forall e :: multiset(OfType(events, TypeName(t)))[e] == if e.sensorType == t then multiset(events)[e] else 0
  {
    FilterCount(events, (e: SensorEvent) => TypeName(e.sensorType) == TypeName(t));
    forall e: SensorEvent {
      TypeNameInjective(e.sensorType, t);
    }
    var r := EventsBySensorQuery(events, TypeName(t), limit);
    forall i | 0 <= i < |r|
      ensures r[i].sensorType == t
    {
      TypeNameInjective(r[i].sensorType, t);
    }
    NewestFirstSpec(OfType(events, TypeName(t)), limit);
  }

  /** The event just recorded heads the answer to a query for its type. */
  lemma EventsBySensorNewest(events: seq<SensorEvent>, e: SensorEvent, limit: int)
    requires limit >= 1
    ensures EventsBySensorQuery(events + [e], TypeName(e.sensorType), limit)[0] == e
  {
    var q := TypeName(e.sensorType);
    FilterAppend(events, e, (x: SensorEvent) => TypeName(x.sensorType) == q);
    NewestFirstSpec(OfType(events + [e], q), limit);
  }
}

=== FILE: stats.dfy ===
/** The numeric routines behind a metrics snapshot: JavaScript's `Math.round` and `Math.ceil`,
    the rolling average and the 95th percentile (lib/metrics-collector.ts:41-42, 52-53, 58-63).

    The source computes in IEEE-754 doubles; this model computes the same formulas in exact
    rational arithmetic (`real`). The two agree except where a double rounding error pushes a value
    across a rounding or threshold boundary, which the model does not capture. */
module Stats {

  // ---------------------------------------------------------------------------------------------
  // Rounding

  /** `Math.round(x)`: the nearest integer, with halves rounded toward +infinity
      (so `Math.round(-2.5) == -2`). */
  function Round(x: real): (r: int)
    ensures r as real <= x + 0.5 < r as real + 1.0
  {
    (x + 0.5).Floor
  }

  /** `Math.ceil(x)`: the least integer not below `x`. */
  function Ceil(x: real): (r: int)
    ensures x <= r as real < x + 1.0
  {
    -((-x).Floor)
  }

  /** Rounding the quotient `a / b` in integer arithmetic. Dafny's `/` on `int` floors for a
      positive divisor, so this is `floor(a/b + 1/2)` for negative `a` as well. */
  function RoundDiv(a: int, b: int): (r: int)
    requires b > 0
    ensures 2 * b * r <= 2 * a + b < 2 * b * r + 2 * b
  {
    (2 * a + b) / (2 * b)
  }

  /** `Math.round(a / b)` on exact rationals is the integer rounding `RoundDiv(a, b)`. */
  lemma RoundOfQuotient(a: int, b: int)
    requires b > 0
    ensures Round(a as real / b as real) == RoundDiv(a, b)
  {
    var q := RoundDiv(a, b);
    var c, d := (2 * a + b) as real, (2 * b) as real;
    HalfQuotient(a as real, b as real);
    assert 2.0 * a as real + b as real == c && 2.0 * b as real == d;
    DivAtLeast(c, d, q as real);
    DivAtLeast(c, d, q as real + 1.0);
    CastMul(q, 2 * b);
    CastMul(q + 1, 2 * b);
  }

  lemma CastMul(m: int, n: int)
    ensures (m * n) as real == m as real * n as real
  {
  }

  /** Comparing a quotient with `p` is comparing the dividend with `p` times the divisor. */
  lemma DivAtLeast(a: real, b: real, p: real)
    requires b > 0.0
    ensures p <= a / b <==> p * b <= a
  {
    assert (a / b) * b == a;
    if p <= a / b {
      assert p * b <= (a / b) * b;
    } else {
      assert (a / b) * b < p * b;
    }
  }

  /** A real `y` with `y * d == c` is the quotient `c / d`. */
  lemma QuotientUnique(y: real, c: real, d: real)
    requires d > 0.0 && y * d == c
    ensures y == c / d
  {
    assert (c / d) * d == c;
    assert (y - c / d) * d == 0.0;
  }

  lemma SubQuotient(a: real, b: real)
    requires b > 0.0
    ensures 1.0 - a / b == (b - a) / b
  {
    var x := a / b;
    assert x * b == a;
    assert (1.0 - x) * b == b - x * b;
    QuotientUnique(1.0 - x, b - a, b);
  }

  lemma HalfQuotient(a: real, b: real)
    requires b > 0.0
    ensures a / b + 0.5 == (2.0 * a + b) / (2.0 * b)
  {
    var x := a / b;
    assert x * b == a;
    assert (x + 0.5) * (2.0 * b) == 2.0 * (x * b) + b;
    QuotientUnique(x + 0.5, 2.0 * a + b, 2.0 * b);
  }

  lemma ScaledQuotient(a: real, b: real, k: real)
    requires b > 0.0
    ensures a / b * k == (a * k) / b
  {
    var x := a / b;
    assert x * b == a;
    assert (x * k) * b == (x * b) * k;
    QuotientUnique(x * k, a * k, b);
  }

  lemma MulMonotone(c: int, x: int, y: int)
    requires c > 0 && x <= y
    ensures c * x <= c * y
  {
  }

  /** A rounded quotient stays between any integer bounds of the exact quotient. */
  lemma RoundDivWithin(a: int, b: int, lo: int, hi: int)
    requires b > 0
    requires lo * b <= a <= hi * b
    ensures lo <= RoundDiv(a, b) <= hi
  {
    var r := RoundDiv(a, b);
    if r > hi {
      MulMonotone(2 * b, hi + 1, r);
    }
    if r < lo {
      MulMonotone(2 * b, r + 1, lo);
    }
  }

  // ---------------------------------------------------------------------------------------------
  // Average

  /** `values.reduce((a, b) => a + b, 0)`. */
  function Sum(s: seq<int>): int
  {
    if s == [] then 0 else Sum(s[..|s| - 1]) + s[|s| - 1]
  }

  lemma {:induction false} SumBounds(s: seq<int>, lo: int, hi: int)
    requires forall i :: 0 <= i < |s| ==> lo <= s[i] <= hi
    ensures lo * |s| <= Sum(s) <= hi * |s|
  {
    if s != [] {
      SumBounds(s[..|s| - 1], lo, hi);
    }
  }

  /** The rounded arithmetic mean, with 0 for an empty window instead of NaN. */
  function Average(window: seq<int>): (r: int)
    ensures |window| == 0 ==> r == 0
    ensures |window| > 0 ==> r == RoundDiv(Sum(window), |window|)
  {
    if |window| > 0 then
      RoundOfQuotient(Sum(window), |window|);
      Round(Sum(window) as real / |window| as real)
    else 0
  }

  /** The average of a non-empty window lies between any lower and upper bound of its samples;
      in particular a window of equal samples averages to that sample. */
  lemma AverageWithinRange(window: seq<int>, lo: int, hi: int)
    requires |window| > 0
    requires forall i :: 0 <= i < |window| ==> lo <= window[i] <= hi
    ensures lo <= Average(window) <= hi
  {
    SumBounds(window, lo, hi);
    RoundDivWithin(Sum(window), |window|, lo, hi);
  }

  // ---------------------------------------------------------------------------------------------
  // Sorting

  predicate Sorted(s: seq<int>)
  {
    forall i, j :: 0 <= i < j < |s| ==> s[i] <= s[j]
  }

  function Insert(x: int, s: seq<int>): (r: seq<int>)
    requires Sorted(s)
    ensures |r| == |s| + 1
    ensures r[0] == x || (s != [] && r[0] == s[0])
    ensures Sorted(r)
    ensures multiset(r) == multiset(s) + multiset{x}
  {
    if s == [] then [x]
    else if x <= s[0] then [x] + s
    else
      assert s == [s[0]] + s[1..];
      var rest := Insert(x, s[1..]);
      assert forall j :: 0 <= j < |rest| ==> s[0] <= rest[0] <= rest[j];
      [s[0]] + rest
  }

  /** `[...values].sort((a, b) => a - b)`: ascending numeric order, a permutation of the input
      (the copy leaves the caller's array alone; here sequences are values anyway). */
  function Sort(s: seq<int>): (r: seq<int>)
    ensures |r| == |s|
    ensures Sorted(r)
    ensures multiset(r) == multiset(s)
  {
    if s == [] then []
    else
      assert s == [s[0]] + s[1..];
      Insert(s[0], Sort(s[1..]))
  }

  // ---------------------------------------------------------------------------------------------
  // 95th percentile

  /** `Math.ceil(n * 0.95)`: the rank (counting from 1) of the 95th-percentile sample. */
  function P95Rank(n: nat): (k: int)
    ensures k == (95 * n + 99) / 100
  {
    Ceil(n as real * 0.95)
  }

  /** The rank is the least `k` with `k / n >= 0.95`; it is always a valid rank of a non-empty
      input, and it is the last rank exactly when `n <= 19` (at `n = 20` it is 19). */
  lemma P95RankRange(n: nat)
    requires n >= 1
    ensures 100 * (P95Rank(n) - 1) < 95 * n <= 100 * P95Rank(n)
    ensures 1 <= P95Rank(n) <= n
    ensures P95Rank(n) == n <==> n <= 19
  {
  }

  /** `calculateP95`: 0 for no samples, else the sample at index `ceil(0.95 n) - 1` of the ascending
      sort. `sorted[index] || 0` only replaces a sample equal to 0 by 0, so it changes nothing. */
  function P95(values: seq<int>): (r: int)
    ensures |values| == 0 ==> r == 0
    ensures |values| > 0 ==> r in values
  {
    if |values| == 0 then 0
    else
      P95RankRange(|values|);
      var sorted := Sort(values);
      assert sorted[P95Rank(|values|) - 1] in multiset(values);
      sorted[P95Rank(|values|) - 1]
  }

  /** Number of samples strictly below `x`. */
  function CountBelow(s: seq<int>, x: int): nat
  {
    if s == [] then 0 else (if s[0] < x then 1 else 0) + CountBelow(s[1..], x)
  }

  /** Number of samples at most `x`. */
  function CountAtMost(s: seq<int>, x: int): nat
  {
    if s == [] then 0 else (if s[0] <= x then 1 else 0) + CountAtMost(s[1..], x)
  }

  /** `x` is a `k`-th smallest sample: fewer than `k` samples lie below it and at least `k` lie at
      or below it. This characterises the order statistic without any sorting. */
  ghost predicate IsOrderStatistic(s: seq<int>, k: int, x: int)
  {
    CountBelow(s, x) < k <= CountAtMost(s, x)
  }

  lemma {:induction false} CountInsert(y: int, s: seq<int>, x: int)
    requires Sorted(s)
    ensures CountBelow(Insert(y, s), x) == CountBelow(s, x) + (if y < x then 1 else 0)
    ensures CountAtMost(Insert(y, s), x) == CountAtMost(s, x) + (if y <= x then 1 else 0)
  {
    if s != [] && y > s[0] {
      CountInsert(y, s[1..], x);
      assert Insert(y, s)[1..] == Insert(y, s[1..]);
    }
  }

  lemma {:induction false} CountSort(s: seq<int>, x: int)
    ensures CountBelow(Sort(s), x) == CountBelow(s, x)
    ensures CountAtMost(Sort(s), x) == CountAtMost(s, x)
  {
    if s != [] {
      CountSort(s[1..], x);
      CountInsert(s[0], Sort(s[1..]), x);
    }
  }

  lemma {:induction false} CountBelowNone(s: seq<int>, x: int)
    requires forall i :: 0 <= i < |s| ==> x <= s[i]
    ensures CountBelow(s, x) == 0
  {
    if s != [] {
      CountBelowNone(s[1..], x);
    }
  }

  /** In a sorted sequence the element at index `k` is a `(k+1)`-th smallest. */
  lemma {:induction false} SortedOrderStatistic(s: seq<int>, k: nat)
    requires Sorted(s) && k < |s|
    ensures IsOrderStatistic(s, k + 1, s[k])
  {
    if k == 0 {
      CountBelowNone(s[1..], s[0]);
    } else {
      SortedOrderStatistic(s[1..], k - 1);
    }
  }

  /** Samples at most `x` are all below any larger `y`. */
  lemma {:induction false} CountAtMostBelow(s: seq<int>, x: int, y: int)
    requires x < y
    ensures CountAtMost(s, x) <= CountBelow(s, y)
  {
    if s != [] {
      CountAtMostBelow(s[1..], x, y);
    }
  }

  /** A rank determines its order statistic: two values that are both `k`-th smallest are equal. */
  lemma OrderStatisticUnique(s: seq<int>, k: int, x: int, y: int)
    requires IsOrderStatistic(s, k, x) && IsOrderStatistic(s, k, y)
    ensures x == y
  {
    if x < y {
      CountAtMostBelow(s, x, y);
    } else if y < x {
      CountAtMostBelow(s, y, x);
    }
  }

  /** The percentile is the `ceil(0.95 n)`-th smallest sample, and by `OrderStatisticUnique` the
      only value with that property. */
  lemma P95IsOrderStatistic(values: seq<int>)
    requires |values| > 0
    ensures IsOrderStatistic(values, P95Rank(|values|), P95(values))
  {
    P95RankRange(|values|);
    var k := P95Rank(|values|);
    var sorted := Sort(values);
    assert P95(values) == sorted[k - 1];
    SortedOrderStatistic(sorted, k - 1);
    CountSort(values, sorted[k - 1]);
  }

  /** For at most 19 samples the 95th percentile is the maximum. */
  lemma P95IsMaxWhenFew(values: seq<int>)
    requires 1 <= |values| <= 19
    ensures forall i :: 0 <= i < |values| ==> values[i] <= P95(values)
  {
    P95RankRange(|values|);
    var sorted := Sort(values);
    assert P95(values) == sorted[|sorted| - 1];
    forall i | 0 <= i < |values|
      ensures values[i] <= P95(values)
    {
      assert values[i] in multiset(sorted);
      var j :| 0 <= j < |sorted| && sorted[j] == values[i];
    }
  }

  /** A single sample is its own percentile. */
  lemma P95Single(x: int)
    ensures P95([x]) == x
  {
  }

  /** From twenty samples on, the percentile need not be the maximum: with `n - 1` zeros followed
      by a single one it is zero. */
  lemma P95BelowMaxFromTwenty(n: nat)
    requires n >= 20
    ensures P95(seq(n - 1, _ => 0) + [1]) == 0
  {
    var zeros := seq(n - 1, _ => 0);
    var s := zeros + [1];
    assert forall i :: 0 <= i < |zeros| ==> zeros[i] < 1;
    CountBelowPrefix(zeros, 1);
    P95IsOrderStatistic(s);
    P95RankRange(n);
    var p := P95(s);
    assert p in s;
    assert p == 0 || p == 1;
    assert p != 1;
  }

  lemma {:induction false} CountBelowPrefix(zeros: seq<int>, one: int)
    requires forall i :: 0 <= i < |zeros| ==> zeros[i] < one
    ensures CountBelow(zeros + [one], one) == |zeros|
  {
    if zeros != [] {
      assert (zeros + [one])[1..] == zeros[1..] + [one];
      CountBelowPrefix(zeros[1..], one);
    }
  }
}

=== FILE: types.dfy ===
/** Record shapes exchanged between the event producer, the metrics collector and its readers
    (lib/types.ts). Timestamps, latencies and durations are integer milliseconds. */
module Types {

  datatype Option<+T> = None | Some(value: T)

  /** The four kinds of reading a device reports. */
  datatype SensorType = Temperature | Accelerometer | Pressure | Humidity

  /** The string literal that stands for a sensor type; sensor queries compare against it. */
  function TypeName(t: SensorType): string
  {
    match t
    case Temperature => "temperature"
    case Accelerometer => "accelerometer"
    case Pressure => "pressure"
    case Humidity => "humidity"
  }

  /** Distinct sensor types have distinct names, so a name query selects exactly one type. */
  lemma TypeNameInjective(t: SensorType, u: SensorType)
    ensures TypeName(t) == TypeName(u) ==> t == u
  {
  }

  /** One reading. `processedAt` and `ingestLatency` are absent on a reading fresh from the
      producer and present once the collector has stored it. */
  datatype SensorEvent = SensorEvent(
    id: string,
    deviceId: string,
    sensorType: SensorType,
    value: real,
    timestamp: int,
    processedAt: Option<int>,
    ingestLatency: Option<int>)

  /** The fields the producer sets, unchanged. */
  predicate SameReading(a: SensorEvent, b: SensorEvent)
  {
    a.id == b.id && a.deviceId == b.deviceId && a.sensorType == b.sensorType
    && a.value == b.value && a.timestamp == b.timestamp
  }

  /** An event as the collector stores it: both enrichment fields present, and the latency is the
      processing time minus the event's own timestamp (negative when the event is from the future). */
  predicate IsEnriched(e: SensorEvent)
  {
    e.processedAt.Some? && e.ingestLatency == Some(e.processedAt.value - e.timestamp)
  }

  /** A point-in-time summary. `throughput` is events per second with one decimal. */
  datatype MetricsSnapshot = MetricsSnapshot(
    timestamp: int,
    eventsReceived: nat,
    eventsProcessed: int,
    eventsFailed: nat,
    avgLatency: int,
    p95Latency: int,
    throughput: real)

  datatype Status = Healthy | Degraded | Critical

  /** `availability` and `errorRate` are percentages with two decimals. */
  datatype SystemHealth = SystemHealth(
    status: Status,
    uptime: int,
    availability: real,
    errorRate: real)
}
